=== FILE: README.md ===
# resu checkpoint engine, in Dafny

A model of the checkpoint/resume engine of `resu` (the `Checkpoint` class in
`resu/resu.py`). The engine applies a user callback to every item of an input
collection, keeps a done-list of item markers, and writes that list to a
checkpoint file now and then, so that a later run can skip work already done.

The model has six modules:

- `Markers` (`markers.dfy`): the optional values, `Encoded` (the markers of a run of
  items), and ordered subsequences. Any Python value, whether an item or a marker
  (a bytes object), is one type parameter `V`. The encoder `_encode` is an opaque,
  deterministic function `enc: V -> V`.
- `CheckpointState` (`checkpoint.dfy`): the instance state (input, checkpoint path,
  done-list `progress`), the constructor and the setters `insert` and `resume`.
  `IsUnset` is Python's `not self.ckpt_file`: no path, or the empty string.
- `ResumePlanner` (`planner.dfy`): `check_progress` as the pure function
  `CheckProgress`. The path's file content is a parameter `stored`, which is `None`
  when the path does not exist. `read_data` is a loader parameter. The invented
  timestamp path is the parameter `freshPath`. The work-set filter is `Remaining`.
- `FlushCadence` (`cadence.dfy`): the doubling threshold of `record`. `FlushCount(F, m)`
  is an independent definition of how many thresholds F, 2F, 4F, ... a run of `m`
  items reaches.
- `ExecutionLoop` (`execution.dfy`): the loop of `record` as the method `Execute`, and
  `record` itself as `Record`. Every overwrite of the checkpoint file is returned in a
  trace of `Write`s. The callback is a function `call: V -> R`, plus a `Fault` that
  says whether it raises at work item k, or whether SIGINT arrives while it handles
  item k. In the second case the handler of lines 46-51 writes the current done-list
  and the process exits with status 1.
- `Reencoding` (`reencoding.dfy`): what a resume really excludes, given that loaded
  entries are encoded a second time (see below).

### Where the code falls short of its own resume message

On resume, lines 91-92 print "Skipped {len(data)} completed entries". That message
says the loaded entries are treated as completed. The code does not make it so. Line 40
stores `self.progress`, which holds markers (line 127). Line 90 then applies `_encode`
to each loaded entry again. So when the file is the snapshot of a run that started with
an empty done-list, the exclusion list after a resume holds `enc(enc(item))`, and line 102
compares `enc(x)` against it. The model follows the code: `CheckProgress` appends
`Encoded(enc, stored)`.

- `Reencoding.ResumeExcludesDoubleMarkers` states exactly which items a resume keeps,
  for the snapshot of a run that started with an empty done-list. An input item is
  dropped exactly when its marker equals `enc(enc(d))` for some item `d` that run
  finished.
- `Reencoding.FinishedItemIsPlannedAgain` gives a concrete encoder under which a
  finished item is planned again.
- `Reencoding.InjectiveEncoderSkipsMarkers` states this for an injective encoder, which
  base64 of a pickle is. There an item is dropped exactly when it is itself the marker of
  a finished item, that is, a bytes object equal to `_encode(d)` for some finished `d`.
- `Reencoding.IdempotentEncoderSkipsDone` shows that an encoder mapping every marker to
  itself would skip every finished item.
- `Reencoding.SkipsDoneOnlyIfIdempotent` shows that for a run over one item `v`, a resume
  skips `v` if, and only if, `enc(enc(v)) == enc(v)`. Base64 of a pickle is always longer
  than its argument, so with the real `_encode` such a run is always planned again.
- `Reencoding.FinishedItemSkippedByAnotherMarker` shows that in longer runs a finished
  item can still be dropped without that condition. With `enc(x) = x + 1`, resuming
  `[0, 1]` after a run over `[0, 1]` drops 1, because its marker 2 is the double
  encoding of 0. With the real encoder, the input `[b, _encode(b)]` behaves the same
  way: its second item is dropped on resume.

The count in the message is also not what it seems. It is the number of loaded
entries, not the number of inputs filtered out (`FinishedItemIsPlannedAgain` shows
one reported skip while nothing is filtered).

A chain of resumes drifts further. Each resume encodes the file's entries once more.
A resumed run that loaded the list S therefore starts from the done-list
`Encoded(enc, S)`, and its first write replaces S by `Encoded(enc, S)` followed by
new markers. So the file is not append-only across runs: S is in general not a prefix
of what replaces it. After k resumes, the items of the first run are excluded under
`enc` applied k + 1 times, and an item that no run finished can be dropped (with
`enc(x) = x + 1`: a run over `[0]` writes `[1]`, a resume over `[0, 5]` writes
`[2, 1, 6]`, and planning `[2]` from that file drops 2).

After a callback raises, only the in-memory done-list holds the items finished before
the failing one, because no final write happens. The file holds this run's last periodic
snapshot if one was written. Otherwise it holds what it held before the run: the empty
placeholder of line 85, or the list loaded at line 88. `Execute` and `Record` state what the trace holds in that case.

## Model

| member | source | states |
|---|---|---|
| CheckpointState.Init | resu/resu.py:24-29 | a new instance keeps the input and path it was given, and starts with an empty done-list |
| CheckpointState.Insert | resu/resu.py:31-32 | replacing the input leaves the path and the done-list unchanged |
| CheckpointState.Resume | resu/resu.py:34-35 | replacing the checkpoint path leaves the input and the done-list unchanged, and reads nothing |
| ResumePlanner.Remaining | resu/resu.py:102 | the work set is an ordered subsequence of the input (items dropped, none reordered or added), and no kept item has its marker in the done-list |
| ResumePlanner.RemainingMultiplicity | resu/resu.py:102 | each value occurs in the work set as often as in the input when its marker is not done, and not at all otherwise, so identical items (the same `V` value, that is, the same pickled form) are all kept or all dropped |
| ResumePlanner.RemainingMembers | resu/resu.py:102 | a value is in the work set exactly when it is an input item whose marker is not in the done-list |
| ResumePlanner.CheckProgress | resu/resu.py:82-103 | no path: a path is invented, the done-list is kept and nothing is reported. Set but missing path: `FileNotFoundError`, with the state unchanged and the input not read. Existing path: the done-list grows by exactly one entry per loaded element, the i-th being `enc(loaded[i])`, with the prior entries unchanged, and the reported skip count is the number loaded. Otherwise the input is read (an unreadable input fails after the done-list was grown). The work set is the input filtered against the grown done-list |
| ResumePlanner.NothingDoneKeepsAll | resu/resu.py:102 | filtering against an empty done-list keeps the whole input, in order |
| ResumePlanner.FreshInstancePlansWholeInput | resu/resu.py:24-103 | a fresh instance without a checkpoint path plans every input item, keeps an empty done-list and gains the invented path |
| ResumePlanner.RemainingComposes | resu/resu.py:89-102 | filtering against a done-list extended by loaded markers is filtering against the old list, then against the new entries |
| ResumePlanner.RemainingIdempotent | resu/resu.py:102 | filtering the work set again against the same done-list changes nothing |
| ResumePlanner.ResumedInstanceReadsItsPath | resu/resu.py:34-35 | after `resume(path)` with a non-empty path, a plan fails with `FileNotFoundError` and no change when the file is missing. Otherwise it extends the instance's own done-list with the encoded file entries |
| ResumePlanner.InsertedItemsArePlanned | resu/resu.py:31-32 | after `insert(items)` on an instance without a path, the work set is the new items filtered against the done-list the instance already had |
| FlushCadence.FlushCountExact | resu/resu.py:128-134 | for `checkpoint_every = F >= 1`, the threshold `F * 2^i` is reached within `m` items exactly when `i` is below the flush count |
| FlushCadence.FlushCountStep | resu/resu.py:128-134 | the current threshold `F * 2^(writes so far)` is above the finished count, and one more item adds a write exactly when it meets that threshold |
| ExecutionLoop.Execute | resu/resu.py:118-137 | results line up with the finished prefix of the work set (`results[i] == call(work[i])`), and the done-list grows by exactly those items' markers. The i-th write happens after `F * 2^i` items and stores the done-list of that moment. There are no periodic writes when `F < 1`. A completed run ends with one final write of the whole done-list. A callback raising at item k leaves the markers of items before k only, and no final write. An interrupt at item k writes that same done-list. Every snapshot is a prefix of every later one |
| ExecutionLoop.StepKeepsProgressed | resu/resu.py:125-134 | one iteration keeps the loop state: one more result and one more marker. A write happens exactly when the new count meets the threshold, and the threshold stays `F * 2^(writes so far)` (it doubles after a write) |
| ExecutionLoop.Record | resu/resu.py:105-137 | planning errors propagate with no write. An empty work set returns nothing, with no callback and no write. Otherwise the instance's done-list ends as the planned one plus the markers of the finished items. The i-th write comes after `F * 2^i` items and stores the done-list of that moment. On completion the results match the work set, and one final write of the final done-list follows. After a raise there are only the periodic writes, with no final write. After an interrupt, the last write stores the done-list at that point |
| Reencoding.ResumeExcludesDoubleMarkers | resu/resu.py:87-102 | resuming from the snapshot of a run that started with an empty done-list and finished `done` keeps an input item exactly when its marker differs from `enc(enc(d))` for every `d` in `done`, and reports `len(done)` skipped entries |
| Reencoding.IdempotentEncoderSkipsDone | resu/resu.py:89-102 | if the encoder maps every marker to itself, a resume drops every item that an earlier run finished |
| Reencoding.SkipsDoneOnlyIfIdempotent | resu/resu.py:87-102 | resuming `[v]` from the snapshot of a run over `[v]` drops `v` exactly when `enc(enc(v)) == enc(v)` |
| Reencoding.InjectiveEncoderSkipsMarkers | resu/resu.py:87-102 | for an injective encoder, resuming from the snapshot of a run that started with an empty done-list and finished `done` drops an input item exactly when it equals `enc(d)` for some `d` in `done` |
| Reencoding.FinishedItemSkippedByAnotherMarker | resu/resu.py:87-102 | with `enc(x) = x + 1`, resuming `[0, 1]` after a run over `[0, 1]` drops the finished item 1 although `enc(enc(1)) != enc(1)`, plans 0 again, and reports two skipped entries |
| Reencoding.ResumeChainDropsUnfinishedItem | resu/resu.py:87-102 | with `enc(x) = x + 1`, resuming `[0, 5]` from the file `[1]` starts from the done-list `[2]` and plans both items again. Planning `[2]` from the file `[2, 1, 6]` that such a run writes excludes `[3, 2, 7]` and drops 2, which no run finished |
| Reencoding.FinishedItemIsPlannedAgain | resu/resu.py:87-102 | with `enc(x) = x + 1`, the item finished by an earlier run is planned again, while one skipped entry is reported |

## Left out

- Checkpoint serialisation (gzip and pickle, lines 37-44). The file is a `seq<V>`
  value, and reading and writing it are exact. An I/O failure while writing is not modelled.
- Encoding (base64 of pickle, lines 78-80). It is the opaque total function `enc`.
  An item that cannot be pickled, so that `_encode` raises, is not modelled.
- `read_data` (lines 53-76), with its suffix dispatch, json, gzip and py7zr. It is the
  loader parameter `load`, and any exception it raises is `LoadFailed`.
- Reading the zero-length placeholder file that an earlier fresh run created. That
  raises inside pickle, and `stored` is always a readable list here.
- SIGINT outside a callback: during planning, during a checkpoint write, or after
  `record` returns (the handler stays installed). Only an interrupt while item k's
  callback runs is modelled.
- The tqdm progress bar, every `print`, the timestamp in the invented path and
  `Path.touch` (lines 84-85, 91-92, 113, 120-123, 131-132). The invented path is the
  parameter `freshPath`.
- The `*args`/`**kwargs` passed through to the callback. The callback is also a
  pure function of the item, so a callback whose result depends on its own state is
  not modelled.
- `checkpoint_every` values that are not integers.
- A one-shot iterator input, such as a generator. `Items` is a collection that can be
  iterated again. A one-shot iterator is used up by the filter at line 102 during the
  first plan, so a second `record` on the same instance would plan nothing and return
  at lines 112-114. The model plans the whole sequence again.
- Python equality of items. Items are values of `V`, and two items are the same value
  only when they pickle to the same bytes. Values that compare equal in Python but
  pickle differently, such as `1`, `True` and `1.0`, or equal dicts with a different key
  order, are different values here. The program, too, may keep one of them and drop
  another, because line 102 compares markers.

=== FILE: cadence.dfy ===
/**
 The flush cadence of `Checkpoint.record`: a snapshot is written when the count
 of finished items equals a threshold that starts at `checkpoint_every` and
 doubles after each such write. Over a run that finishes `m` items this writes
 after F, 2F, 4F, ... items, as long as the count stays within `m`.
 */
module FlushCadence {

  function Pow2(i: nat): (r: nat)
    ensures r >= 1
  {
    if i == 0 then 1 else 2 * Pow2(i - 1)
  }

  /** The number of thresholds F, 2F, 4F, ... that a run of `m` items reaches;
      none when `F` is not positive, since a count of one or more never equals it. */
  function FlushCount(F: int, m: int): (r: nat)
    ensures r > 0 ==> 1 <= F <= m
    decreases m - F
  {
    if F < 1 || F > m then 0 else 1 + FlushCount(2 * F, m)
  }

  /** The thresholds reached are exactly the first `FlushCount(F, m)` doublings of `F`. */
  lemma {:induction false} FlushCountExact(F: int, m: int, i: nat)
    requires F >= 1
    ensures F * Pow2(i) <= m <==> i < FlushCount(F, m)
    decreases i
  {
    if i == 0 {
    } else if F > m {
      assert F * Pow2(i) >= F * 1;
    } else {
      assert F * Pow2(i) == (2 * F) * Pow2(i - 1);
      FlushCountExact(2 * F, m, i - 1);
    }
  }

  /** One more finished item adds a write exactly when the count reaches the current
      threshold, which is `F` doubled once per write so far. */
  lemma FlushCountStep(F: int, n: nat)
    requires F >= 1
    ensures F * Pow2(FlushCount(F, n)) > n
    ensures FlushCount(F, n + 1)
         == FlushCount(F, n) + (if n + 1 == F * Pow2(FlushCount(F, n)) then 1 else 0)
  {
    var c := FlushCount(F, n);
    var c' := FlushCount(F, n + 1);
    FlushCountExact(F, n, c);
    FlushCountExact(F, n + 1, c);
    FlushCountExact(F, n + 1, c + 1);
    assert F * Pow2(c + 1) == 2 * (F * Pow2(c));
    if c > 0 {
      FlushCountExact(F, n, c - 1);
      FlushCountExact(F, n + 1, c - 1);
    }
  }
}

=== FILE: checkpoint.dfy ===
/**
 The state of one `Checkpoint` instance: what it will read its items from, the
 path of its checkpoint file, and its in-memory done-list (`progress`).
 The constructor and the two setters change one part each and nothing else.
 */
module CheckpointState {
  import opened Markers

  /** Where the items come from: nothing yet, an in-memory collection, or a file path. */
  datatype InputData<V> = NoInput | Items(items: seq<V>) | FilePath(path: string)

  datatype Checkpoint<V> = Checkpoint(input: InputData<V>, ckptFile: Option<string>, progress: seq<V>)

  /** Python's `not self.ckpt_file`: no path at all, or the empty string. */
  predicate IsUnset(ckptFile: Option<string>)
  {
    ckptFile.None? || ckptFile.value == ""
  }

  /** A new instance holds both arguments as given and an empty done-list. */
  function Init<V>(input: InputData<V>, ckptFile: Option<string>): (c: Checkpoint<V>)
    ensures c.input == input && c.ckptFile == ckptFile
    ensures |c.progress| == 0
  {
    Checkpoint(input, ckptFile, [])
  }

  /** Replaces the input and nothing else; the done-list in particular is kept. */
  function Insert<V>(c: Checkpoint<V>, input: InputData<V>): (c': Checkpoint<V>)
    ensures c'.input == input
    ensures c'.ckptFile == c.ckptFile && c'.progress == c.progress
  {
    c.(input := input)
  }

  /** Replaces the checkpoint path and nothing else; nothing is read until a plan is made. */
  function Resume<V>(c: Checkpoint<V>, ckptFile: Option<string>): (c': Checkpoint<V>)
    ensures c'.ckptFile == ckptFile
    ensures c'.input == c.input && c'.progress == c.progress
  {
    c.(ckptFile := ckptFile)
  }
}

=== FILE: execution.dfy ===
/**
 The execution loop (`Checkpoint.record`): plan the work set, then for each item
 call the callback, append the item's marker to the done-list, write a snapshot
 when the finished count reaches the doubling threshold, and write once more at
 the end. Every write to the checkpoint file is returned as a trace.
 */
module ExecutionLoop {
  import opened Markers
  import opened CheckpointState
  import opened ResumePlanner
  import opened FlushCadence

  /** Why a snapshot was written: the doubling threshold, the end of the run, or
      the interrupt handler. */
  datatype WriteKind = Periodic | Final | OnInterrupt

  /** One whole-file overwrite of the checkpoint: why, after how many finished
      items of the work set, and the done-list it stored. */
  datatype Write<V> = Write(kind: WriteKind, after: nat, snapshot: seq<V>)

  /** How the callback behaves: it always returns, it raises while handling work
      item `index`, or the interrupt signal arrives while it handles item `index`. */
  datatype Fault = NoFault | RaiseAt(index: nat) | InterruptAt(index: nat)

  /** How the loop ends for a work set of a given size. */
  datatype Stop = Finished | Raised(index: nat) | Interrupted(index: nat)

  /** What `record` hands back: the planning error it propagates, `None` when
      nothing is left to do, the results, the callback's exception, or the exit
      status the interrupt handler terminates with. */
  datatype Outcome<R> =
    | PlanFailed(error: PlanError)
    | NothingToDo
    | Completed(results: seq<R>)
    | CallbackRaised(index: nat)
    | Exited(status: int)

  /** A fault only matters when its item is part of the work set. */
  function StopOf(fault: Fault, size: nat): (s: Stop)
    ensures s.Raised? || s.Interrupted? ==> s.index < size
  {
    match fault
    case NoFault => Finished
    case RaiseAt(k) => if k < size then Raised(k) else Finished
    case InterruptAt(k) => if k < size then Interrupted(k) else Finished
  }

  /** The number of callbacks that returned before the loop stopped. */
  function Finishes(stop: Stop, size: nat): (k: nat)
  {
    match stop
    case Finished => size
    case Raised(k) => k
    case Interrupted(k) => k
  }

  /** Every snapshot is a prefix of every later one. */
  predicate AppendOnly<V(==)>(writes: seq<Write<V>>)
  {
    forall i, j :: 0 <= i < j < |writes| ==> writes[i].snapshot <= writes[j].snapshot
  }

  /** The loop of `record` over a planned work set, starting from the done-list
      `progress`, with `every` as `checkpoint_every`. */
  method Execute<V(==), R>(work: seq<V>, progress: seq<V>, enc: V -> V, call: V -> R,
                           every: int, fault: Fault)
    returns (results: seq<R>, done: seq<V>, writes: seq<Write<V>>, stop: Stop)
    ensures stop == StopOf(fault, |work|)
    // results line up with the finished prefix of the work set
    ensures |results| == Finishes(stop, |work|)
    ensures forall i :: 0 <= i < |results| && i < |work| ==> results[i] == call(work[i])
    // the done-list grows by the markers of exactly the finished items
    ensures |results| <= |work| && done == progress + Encoded(enc, work[..|results|])
    // periodic writes after F, 2F, 4F, ... finished items, then the final or interrupt write
    ensures |writes| == FlushCount(every, |results|) + (if stop.Raised? then 0 else 1)
    ensures forall i :: 0 <= i < FlushCount(every, |results|) && i < |writes| ==>
      && 0 <= every * Pow2(i) <= |results| <= |work|
      && writes[i] == Write(Periodic, every * Pow2(i),
                            progress + Encoded(enc, work[..every * Pow2(i)]))
    ensures stop.Finished? ==> 0 < |writes| && writes[|writes| - 1] == Write(Final, |work|, done)
    ensures stop.Interrupted? ==>
      0 < |writes| && writes[|writes| - 1] == Write(OnInterrupt, |results|, done)
    ensures AppendOnly(writes)
  {
    results, done, writes := [], progress, [];
    var threshold := every;
    var n := 0;
    while n < |work| && !Strikes(fault, n)
      invariant n <= |work|
      invariant fault.RaiseAt? || fault.InterruptAt? ==> n <= fault.index
      invariant Progressed(work, progress, enc, call, every, n, results, done, writes, threshold)
    {
      var due := n + 1 == threshold;
      StepKeepsProgressed(work, progress, enc, call, every, n, results, done, writes, threshold);
      results := results + [call(work[n])];
      done := done + [enc(work[n])];
      n := n + 1;
      if due {
        writes := writes + [Write(Periodic, n, done)];
        threshold := threshold + threshold;
      }
    }
    stop := StopOf(fault, |work|);
    if stop.Raised? {
      return;
    }
    var kind := if stop.Finished? then Final else OnInterrupt;
    SnapshotsWithinAdd(writes, Write(kind, n, done));
    writes := writes + [Write(kind, n, done)];
  }

  /** The state of the loop after `n` finished items: results and markers of exactly
      those items, one periodic write per threshold reached, the next threshold
      `every * 2^(writes so far)`, and an append-only trace within the done-list. */
  ghost predicate Progressed<V, R>(work: seq<V>, progress: seq<V>, enc: V -> V, call: V -> R,
                                       every: int, n: nat, results: seq<R>, done: seq<V>,
                                       writes: seq<Write<V>>, threshold: int)
  {
    && n <= |work|
    && |results| == n
    && (forall i :: 0 <= i < n ==> results[i] == call(work[i]))
    && done == progress + Encoded(enc, work[..n])
    && |writes| == FlushCount(every, n)
    && threshold == (if every >= 1 then every * Pow2(|writes|) else every)
    && PeriodicWrites(writes, progress, enc, work, every, n)
    && SnapshotsWithin(writes, done)
  }

  /** One iteration of the loop: call, append the marker, and write when the new
      count meets the threshold, which then doubles. */
  lemma StepKeepsProgressed<V, R>(work: seq<V>, progress: seq<V>, enc: V -> V, call: V -> R,
                                      every: int, n: nat, results: seq<R>, done: seq<V>,
                                      writes: seq<Write<V>>, threshold: int)
    requires n < |work|
    requires Progressed(work, progress, enc, call, every, n, results, done, writes, threshold)
    ensures var done' := done + [enc(work[n])];
      var due := n + 1 == threshold;
      Progressed(work, progress, enc, call, every, n + 1,
                 results + [call(work[n])], done',
                 if due then writes + [Write(Periodic, n + 1, done')] else writes,
                 if due then threshold + threshold else threshold)
  {
    EncodedSnoc(enc, work[..n], work[n]);
    assert work[..n + 1] == work[..n] + [work[n]];
    WritesStep(work, progress, enc, every, n, done, writes, threshold);
  }

  /** The write-trace part of one iteration: the count of writes follows `FlushCount`,
      the threshold doubles after a write, and the trace stays within the done-list. */
  lemma WritesStep<V>(work: seq<V>, progress: seq<V>, enc: V -> V, every: int, n: nat,
                      done: seq<V>, writes: seq<Write<V>>, threshold: int)
    requires n < |work|
    requires done + [enc(work[n])] == progress + Encoded(enc, work[..n + 1])
    requires |writes| == FlushCount(every, n)
    requires threshold == (if every >= 1 then every * Pow2(|writes|) else every)
    requires PeriodicWrites(writes, progress, enc, work, every, n)
    requires SnapshotsWithin(writes, done)
    ensures var done' := done + [enc(work[n])];
      var due := n + 1 == threshold;
      var writes' := if due then writes + [Write(Periodic, n + 1, done')] else writes;
      var threshold' := if due then threshold + threshold else threshold;
      && |writes'| == FlushCount(every, n + 1)
      && threshold' == (if every >= 1 then every * Pow2(|writes'|) else every)
      && PeriodicWrites(writes', progress, enc, work, every, n + 1)
      && SnapshotsWithin(writes', done')
  {
    var done' := done + [enc(work[n])];
    SnapshotsWithinGrow(writes, done, enc(work[n]));
    if every >= 1 {
      FlushCountStep(every, n);
    }
    PeriodicWritesStep(writes, progress, enc, work, every, n, n + 1 == threshold);
    if n + 1 == threshold {
      SnapshotsWithinAdd(writes, Write(Periodic, n + 1, done'));
      assert every * Pow2(|writes| + 1) == every * Pow2(|writes|) + every * Pow2(|writes|);
    }
  }

  /** The periodic writes so far stay valid after one more item, and a write made at
      the threshold `every * 2^|writes|` is the next periodic one. */
  lemma PeriodicWritesStep<V>(writes: seq<Write<V>>, progress: seq<V>, enc: V -> V,
                              work: seq<V>, every: int, n: nat, due: bool)
    requires n < |work|
    requires PeriodicWrites(writes, progress, enc, work, every, n)
    requires due ==> every * Pow2(|writes|) == n + 1
    ensures PeriodicWrites(if due then writes + [Write(Periodic, n + 1,
                                                   progress + Encoded(enc, work[..n + 1]))]
                           else writes, progress, enc, work, every, n + 1)
  {
    if due {
      var w := Write(Periodic, n + 1, progress + Encoded(enc, work[..n + 1]));
      var writes' := writes + [w];
      forall i | 0 <= i < |writes'|
        ensures && 0 <= every * Pow2(i) <= n + 1 <= |work|
                && writes'[i] == Write(Periodic, every * Pow2(i),
                                       progress + Encoded(enc, work[..every * Pow2(i)]))
      {
        if i < |writes| {
          assert writes'[i] == writes[i];
        } else {
          assert i == |writes| && every * Pow2(i) == n + 1;
          assert writes'[i] == w;
        }
      }
    }
  }

  /** The fault takes effect when the loop reaches its item. */
  predicate Strikes(fault: Fault, n: nat)
  {
    (fault.RaiseAt? || fault.InterruptAt?) && fault.index == n
  }

  /** The `i`-th write is the periodic one after `every * 2^i` finished items. */
  predicate PeriodicWrites<V(==)>(writes: seq<Write<V>>, progress: seq<V>, enc: V -> V,
                              work: seq<V>, every: int, n: nat)
  {
    forall i :: 0 <= i < |writes| ==>
      && 0 <= every * Pow2(i) <= n <= |work|
      && writes[i] == Write(Periodic, every * Pow2(i),
                            progress + Encoded(enc, work[..every * Pow2(i)]))
  }

  /** The trace is append-only and every snapshot in it is a prefix of `done`. */
  predicate SnapshotsWithin<V(==)>(writes: seq<Write<V>>, done: seq<V>)
  {
    AppendOnly(writes) && forall i :: 0 <= i < |writes| ==> writes[i].snapshot <= done
  }

  lemma SnapshotsWithinGrow<V>(writes: seq<Write<V>>, done: seq<V>, x: V)
    requires SnapshotsWithin(writes, done)
    ensures SnapshotsWithin(writes, done + [x])
  {
    forall i | 0 <= i < |writes|
      ensures writes[i].snapshot <= done + [x]
    {
      assert (done + [x])[..|done|] == done;
    }
  }

  lemma SnapshotsWithinAdd<V>(writes: seq<Write<V>>, w: Write<V>)
    requires SnapshotsWithin(writes, w.snapshot)
    ensures SnapshotsWithin(writes + [w], w.snapshot)
  {
  }

  /** `record`: plan, return early when nothing is left, otherwise run the loop and
      store the grown done-list back in the instance. */
  method Record<V(==), R>(c: Checkpoint<V>, enc: V -> V, freshPath: string,
                          stored: Option<seq<V>>, load: string -> Option<seq<V>>,
                          call: V -> R, every: int, fault: Fault)
    returns (c': Checkpoint<V>, outcome: Outcome<R>, writes: seq<Write<V>>)
    // planning errors propagate, leaving whatever planning did to the instance
    ensures var p := CheckProgress(c, enc, freshPath, stored, load);
      p.Failed? ==> c' == p.state && outcome == PlanFailed(p.error) && writes == []
    // an empty work set: no callback, no write
    ensures var p := CheckProgress(c, enc, freshPath, stored, load);
      p.Planned? && p.work == [] ==> c' == p.state && outcome == NothingToDo && writes == []
    ensures var p := CheckProgress(c, enc, freshPath, stored, load);
      p.Planned? && p.work != [] ==>
        var stop := StopOf(fault, |p.work|);
        var m := Finishes(stop, |p.work|);
        && m <= |p.work|
        && c'.input == p.state.input && c'.ckptFile == p.state.ckptFile
        && c'.progress == p.state.progress + Encoded(enc, p.work[..m])
        // periodic writes after F, 2F, 4F, ... items, then the final or interrupt write
        && |writes| == FlushCount(every, m) + (if stop.Raised? then 0 else 1)
        && (forall i :: 0 <= i < FlushCount(every, m) && i < |writes| ==>
              && 0 <= every * Pow2(i) <= |p.work|
              && writes[i] == Write(Periodic, every * Pow2(i),
                                    p.state.progress + Encoded(enc, p.work[..every * Pow2(i)])))
        && AppendOnly(writes)
        && (stop.Finished? ==>
              && outcome.Completed?
              && |outcome.results| == |p.work|
              && (forall i :: 0 <= i < |p.work| ==> outcome.results[i] == call(p.work[i]))
              && writes[|writes| - 1] == Write(Final, |p.work|, c'.progress))
        // a raise leaves only the periodic writes: line 136 is not reached
        && (stop.Raised? ==> outcome == CallbackRaised(stop.index))
        && (stop.Interrupted? ==>
              outcome == Exited(1) && writes[|writes| - 1] == Write(OnInterrupt, m, c'.progress))
  {
    var p := CheckProgress(c, enc, freshPath, stored, load);
    if p.Failed? {
      c', outcome, writes := p.state, PlanFailed(p.error), [];
      return;
    }
    if p.work == [] {
      c', outcome, writes := p.state, NothingToDo, [];
      return;
    }
    var results, done, stop;
    results, done, writes, stop := Execute(p.work, p.state.progress, enc, call, every, fault);
    c' := p.state.(progress := done);
    match stop
    case Finished => outcome := Completed(results);
    case Raised(k) => outcome := CallbackRaised(k);
    case Interrupted(_) => outcome := Exited(1);
  }
}

=== FILE: markers.dfy ===
/**
 Shared vocabulary of the checkpoint engine: optional values, the done-markers
 an encoder produces for a run of items, and order-preserving subsequences.

 Every Python value (an input item as well as a marker, which is a bytes object)
 is represented by one type parameter `V`; the engine's `_encode` is an opaque,
 deterministic function `enc: V -> V`.
 */
module Markers {

  datatype Option<+T> = None | Some(value: T)

  /** The markers of `xs`, one per item and in item order (`[enc(x) for x in xs]`). */
  function Encoded<V>(enc: V -> V, xs: seq<V>): (r: seq<V>)
    ensures |r| == |xs|
    ensures forall i :: 0 <= i < |xs| ==> r[i] == enc(xs[i])
  {
    seq(|xs|, i requires 0 <= i < |xs| => enc(xs[i]))
  }

  /** Encoding one more item appends exactly that item's marker. */
  lemma EncodedSnoc<V>(enc: V -> V, xs: seq<V>, x: V)
    ensures Encoded(enc, xs + [x]) == Encoded(enc, xs) + [enc(x)]
  {
  }

  /** `a` is `b` with some elements removed and the rest kept in order. */
  predicate IsSubsequence<V(==)>(a: seq<V>, b: seq<V>)
    decreases |b|
  {
    a == [] ||
    (b != [] &&
     ((a[0] == b[0] && IsSubsequence(a[1..], b[1..])) || IsSubsequence(a, b[1..])))
  }
}

=== FILE: planner.dfy ===
/**
 Resume planning (`Checkpoint.check_progress`): settle the checkpoint path,
 extend the done-list from the stored checkpoint, read the items and keep, in
 input order, those whose marker is not yet in the done-list.
 */
module ResumePlanner {
  import opened Markers
  import opened CheckpointState

  /** The errors planning can raise: a missing checkpoint path (`FileNotFoundError`),
      an input of `None` that cannot be iterated (`TypeError`), and an input file
      the loader rejects (whatever `read_data` raises). */
  datatype PlanError = CheckpointNotFound | NotIterable | LoadFailed

  /** The items of the input, or why they cannot be had. */
  datatype InputRead<V> = Read(items: seq<V>) | Unreadable(error: PlanError)

  /** A plan keeps the instance state it leaves behind even when it fails, because
      the done-list is extended before the input is read. `skipped` is the count the
      resume message reports, and `None` when no checkpoint was loaded. */
  datatype Plan<V> =
    | Planned(state: Checkpoint<V>, work: seq<V>, skipped: Option<nat>)
    | Failed(state: Checkpoint<V>, error: PlanError)

  /** A string input names a file for the loader; `None` is not iterable. */
  function ReadInput<V>(input: InputData<V>, load: string -> Option<seq<V>>): (r: InputRead<V>)
    ensures r.Unreadable? ==> r.error != CheckpointNotFound
  {
    match input
    case NoInput => Unreadable(NotIterable)
    case Items(xs) => Read(xs)
    case FilePath(path) =>
      match load(path)
      case Some(xs) => Read(xs)
      case None => Unreadable(LoadFailed)
  }

  /** The work set: the items whose marker is not in `progress`, in input order.
      Since `progress` does not change while filtering, identical items (the same
      value of `V`) are all kept or all dropped. */
  function Remaining<V(==)>(enc: V -> V, xs: seq<V>, progress: seq<V>): (r: seq<V>)
    ensures IsSubsequence(r, xs)
    ensures forall i :: 0 <= i < |r| ==> enc(r[i]) !in progress
    decreases |xs|
  {
    if xs == [] then []
    else if enc(xs[0]) in progress then Remaining(enc, xs[1..], progress)
      else [xs[0]] + Remaining(enc, xs[1..], progress)
  }

  /** Each value keeps all its copies when its marker is not done and loses them
      all otherwise: identical items are all kept or all dropped. */
  lemma {:induction false} RemainingMultiplicity<V>(enc: V -> V, xs: seq<V>, progress: seq<V>, x: V)
    ensures multiset(Remaining(enc, xs, progress))[x]
         == if enc(x) in progress then 0 else multiset(xs)[x]
    decreases |xs|
  {
    if xs != [] {
      RemainingMultiplicity(enc, xs[1..], progress, x);
      assert xs == [xs[0]] + xs[1..];
      assert multiset(xs) == multiset([xs[0]]) + multiset(xs[1..]);
      if enc(xs[0]) !in progress {
        var rest := Remaining(enc, xs[1..], progress);
        assert multiset([xs[0]] + rest) == multiset([xs[0]]) + multiset(rest);
      }
    }
  }

  /** The work set holds exactly the input items whose marker is not done. */
  lemma RemainingMembers<V>(enc: V -> V, xs: seq<V>, progress: seq<V>, x: V)
    ensures x in Remaining(enc, xs, progress) <==> x in xs && enc(x) !in progress
  {
    RemainingMultiplicity(enc, xs, progress, x);
  }

  /** `check_progress`. `freshPath` is the timestamp name invented when no path is
      set; `stored` is the content of the checkpoint file at the set path, `None`
      when that path does not exist; `load` stands for `read_data`. */
  function CheckProgress<V(==)>(c: Checkpoint<V>, enc: V -> V, freshPath: string,
                                stored: Option<seq<V>>, load: string -> Option<seq<V>>): (p: Plan<V>)
    // without a path: a path is invented, the done-list is kept, nothing is reported
    ensures IsUnset(c.ckptFile) ==>
      p.state == c.(ckptFile := Some(freshPath)) && (p.Planned? ==> p.skipped.None?)
    // a set path that does not exist fails before the input is looked at
    ensures !IsUnset(c.ckptFile) && stored.None? ==> p == Failed(c, CheckpointNotFound)
    // a set path that exists: one new entry per loaded element, each encoded once more
    ensures !IsUnset(c.ckptFile) && stored.Some? ==>
      && p.state.input == c.input && p.state.ckptFile == c.ckptFile
      && |p.state.progress| == |c.progress| + |stored.value|
      && p.state.progress[..|c.progress|] == c.progress
      && (forall i :: 0 <= i < |stored.value| ==>
            p.state.progress[|c.progress| + i] == enc(stored.value[i]))
      && (p.Planned? ==> p.skipped == Some(|stored.value|))
    // the input is read only once the checkpoint part succeeded
    ensures p.Planned? <==>
      (IsUnset(c.ckptFile) || stored.Some?) && ReadInput(c.input, load).Read?
    ensures p.Failed? && p.error != CheckpointNotFound ==>
      p.error == ReadInput(c.input, load).error
    // the work set is filtered against the done-list as it stands after loading
    ensures p.Planned? ==>
      p.work == Remaining(enc, ReadInput(c.input, load).items, p.state.progress)
  {
    var (c', skipped) :=
      if IsUnset(c.ckptFile) then (c.(ckptFile := Some(freshPath)), None)
      else if stored.Some? then
        (c.(progress := c.progress + Encoded(enc, stored.value)), Some(|stored.value|))
      else (c, None);
    if !IsUnset(c.ckptFile) && stored.None? then Failed(c, CheckpointNotFound)
    else
      match ReadInput(c'.input, load)
      case Unreadable(e) => Failed(c', e)
      case Read(xs) => Planned(c', Remaining(enc, xs, c'.progress), skipped)
  }

  /** With nothing done, the work set is the whole input. */
  lemma {:induction false} NothingDoneKeepsAll<V>(enc: V -> V, xs: seq<V>)
    ensures Remaining(enc, xs, []) == xs
    decreases |xs|
  {
    if xs != [] {
      NothingDoneKeepsAll(enc, xs[1..]);
      assert xs == [xs[0]] + xs[1..];
    }
  }

  /** Filtering against `p + q` is filtering against `p`, then against `q`. */
  lemma {:induction false} RemainingComposes<V>(enc: V -> V, xs: seq<V>, p: seq<V>, q: seq<V>)
    ensures Remaining(enc, xs, p + q) == Remaining(enc, Remaining(enc, xs, p), q)
    decreases |xs|
  {
    if xs != [] {
      RemainingComposes(enc, xs[1..], p, q);
      var rest := Remaining(enc, xs[1..], p);
      if enc(xs[0]) !in p {
        assert ([xs[0]] + rest)[1..] == rest;
      }
    }
  }

  /** Planning again against the same done-list leaves the work set as it is. */
  lemma {:induction false} RemainingIdempotent<V>(enc: V -> V, xs: seq<V>, p: seq<V>)
    ensures Remaining(enc, Remaining(enc, xs, p), p) == Remaining(enc, xs, p)
    decreases |xs|
  {
    if xs != [] {
      RemainingIdempotent(enc, xs[1..], p);
      var rest := Remaining(enc, xs[1..], p);
      if enc(xs[0]) !in p {
        assert ([xs[0]] + rest)[1..] == rest;
      }
    }
  }

  /** A fresh instance without a checkpoint path keeps an empty done-list, reports
      no skipped entries and plans every input item, in order. */
  lemma FreshInstancePlansWholeInput<V>(xs: seq<V>, enc: V -> V, freshPath: string,
                                        stored: Option<seq<V>>, load: string -> Option<seq<V>>)
    ensures CheckProgress(Init(Items(xs), None), enc, freshPath, stored, load)
         == Planned(Checkpoint(Items(xs), Some(freshPath), []), xs, None)
  {
    NothingDoneKeepsAll(enc, xs);
  }

  /** After `resume(path)` with a non-empty path, planning reads that path: an existing
      file grows the instance's own done-list, a missing one fails and changes nothing. */
  lemma ResumedInstanceReadsItsPath<V>(c: Checkpoint<V>, path: string, enc: V -> V, freshPath: string,
                                       stored: Option<seq<V>>, load: string -> Option<seq<V>>)
    requires path != ""
    ensures var p := CheckProgress(Resume(c, Some(path)), enc, freshPath, stored, load);
      && (stored.None? ==> p == Failed(Resume(c, Some(path)), CheckpointNotFound))
      && (stored.Some? ==>
            p.state == Checkpoint(c.input, Some(path), c.progress + Encoded(enc, stored.value)))
  {
  }

  /** After `insert(items)`, the work set is drawn from the new items, filtered against
      the done-list the instance already had. */
  lemma InsertedItemsArePlanned<V>(c: Checkpoint<V>, xs: seq<V>, enc: V -> V, freshPath: string,
                                   stored: Option<seq<V>>, load: string -> Option<seq<V>>)
    requires IsUnset(c.ckptFile)
    ensures CheckProgress(Insert(c, Items(xs)), enc, freshPath, stored, load)
         == Planned(Checkpoint(Items(xs), Some(freshPath), c.progress),
                    Remaining(enc, xs, c.progress), None)
  {
  }
}

=== FILE: reencoding.dfy ===
/**
 What a resume actually excludes. A run that starts with an empty done-list
 stores markers (`enc(item)`) in the checkpoint file, and resuming encodes every
 loaded entry once more, so the exclusion list holds `enc(enc(item))` while the
 filter compares `enc(input)` against it. An item is therefore skipped only when
 its marker happens to equal the double encoding of an item that run finished,
 and the reported skip count is the number of loaded entries, whatever the filter
 removes. A resumed run starts from the loaded entries encoded once more, so its
 snapshots carry one more layer of encoding for each earlier resume.
 */
module Reencoding {
  import opened Markers
  import opened CheckpointState
  import opened ResumePlanner

  /** Resuming a new instance from the snapshot of a run that finished the items
      `done` keeps an input item exactly when its marker differs from the double
      encoding of every finished item, and reports `|done|` skipped entries. */
  lemma ResumeExcludesDoubleMarkers<V>(ys: seq<V>, done: seq<V>, enc: V -> V, path: string,
                                       freshPath: string, load: string -> Option<seq<V>>)
    requires path != ""
    ensures var p := CheckProgress(Init(Items(ys), Some(path)), enc, freshPath,
                                   Some(Encoded(enc, done)), load);
      && p.Planned?
      && p.skipped == Some(|done|)
      && p.state.progress == Encoded(enc, Encoded(enc, done))
      && forall i :: 0 <= i < |ys| ==>
           (ys[i] in p.work <==> forall j :: 0 <= j < |done| ==> enc(ys[i]) != enc(enc(done[j])))
  {
    var p := CheckProgress(Init(Items(ys), Some(path)), enc, freshPath,
                           Some(Encoded(enc, done)), load);
    var excluded := Encoded(enc, Encoded(enc, done));
    assert p.state.progress == [] + Encoded(enc, Encoded(enc, done));
    forall i | 0 <= i < |ys|
      ensures ys[i] in p.work <==> forall j :: 0 <= j < |done| ==> enc(ys[i]) != enc(enc(done[j]))
    {
      RemainingMembers(enc, ys, excluded, ys[i]);
      if enc(ys[i]) in excluded {
        var k :| 0 <= k < |excluded| && excluded[k] == enc(ys[i]);
        assert enc(ys[i]) == enc(enc(done[k]));
      } else {
        forall j | 0 <= j < |done|
          ensures enc(ys[i]) != enc(enc(done[j]))
        {
          assert excluded[j] == enc(enc(done[j]));
        }
      }
    }
  }

  /** For an encoder that maps every marker to itself, a resume skips every item
      finished before, which is what the resume message announces. */
  lemma IdempotentEncoderSkipsDone<V>(ys: seq<V>, done: seq<V>, enc: V -> V, path: string,
                                      freshPath: string, load: string -> Option<seq<V>>)
    requires path != ""
    requires forall v :: enc(enc(v)) == enc(v)
    ensures var p := CheckProgress(Init(Items(ys), Some(path)), enc, freshPath,
                                   Some(Encoded(enc, done)), load);
      p.Planned? && forall i :: 0 <= i < |ys| && ys[i] in done ==> ys[i] !in p.work
  {
    ResumeExcludesDoubleMarkers(ys, done, enc, path, freshPath, load);
    var p := CheckProgress(Init(Items(ys), Some(path)), enc, freshPath,
                           Some(Encoded(enc, done)), load);
    forall i | 0 <= i < |ys| && ys[i] in done
      ensures ys[i] !in p.work
    {
      var j :| 0 <= j < |done| && done[j] == ys[i];
      assert enc(ys[i]) == enc(enc(done[j]));
    }
  }

  /** An encoder that is not idempotent: with `enc(x) = x + 1`, the item 1 finished
      by an earlier run is stored as marker 2, excluded as 3, and planned again,
      while the resume reports one skipped entry. */
  lemma FinishedItemIsPlannedAgain()
    ensures var enc := (x: int) => x + 1;
      var p := CheckProgress(Init(Items([1]), Some("run.ckpt")), enc, "0.ckpt",
                             Some(Encoded(enc, [1])), _ => None);
      p == Planned(Checkpoint(Items([1]), Some("run.ckpt"), [3]), [1], Some(1))
  {
    var enc := (x: int) => x + 1;
    assert Encoded(enc, [1]) == [2];
    assert Encoded(enc, [2]) == [3];
    assert [] + [3] == [3];
  }

  /** For a run over the single item `v`, a resume drops `v` exactly when the encoder
      maps `v`'s marker to itself. The real encoder, base64 of a pickle, always returns
      a longer bytes object than its argument, so such a run is always planned again.
      In longer runs another finished item can still be dropped (see
      `FinishedItemSkippedByAnotherMarker`). */
  lemma SkipsDoneOnlyIfIdempotent<V>(v: V, enc: V -> V, path: string,
                                     freshPath: string, load: string -> Option<seq<V>>)
    requires path != ""
    ensures var p := CheckProgress(Init(Items([v]), Some(path)), enc, freshPath,
                                   Some(Encoded(enc, [v])), load);
      p.Planned? && (v !in p.work <==> enc(enc(v)) == enc(v))
  {
    ResumeExcludesDoubleMarkers([v], [v], enc, path, freshPath, load);
  }

  /** For an injective encoder (base64 of a pickle is one: equal outputs come from
      byte-equal pickles), a resume drops an input item exactly when the item is
      itself the marker of some finished item. */
  lemma InjectiveEncoderSkipsMarkers<V>(ys: seq<V>, done: seq<V>, enc: V -> V, path: string,
                                        freshPath: string, load: string -> Option<seq<V>>)
    requires path != ""
    requires forall a, b :: enc(a) == enc(b) ==> a == b
    ensures var p := CheckProgress(Init(Items(ys), Some(path)), enc, freshPath,
                                   Some(Encoded(enc, done)), load);
      && p.Planned?
      && forall i :: 0 <= i < |ys| ==>
           (ys[i] !in p.work <==> exists j :: 0 <= j < |done| && ys[i] == enc(done[j]))
  {
    ResumeExcludesDoubleMarkers(ys, done, enc, path, freshPath, load);
    var p := CheckProgress(Init(Items(ys), Some(path)), enc, freshPath,
                           Some(Encoded(enc, done)), load);
    forall i | 0 <= i < |ys|
      ensures ys[i] !in p.work <==> exists j :: 0 <= j < |done| && ys[i] == enc(done[j])
    {
      if ys[i] !in p.work {
        var j :| 0 <= j < |done| && enc(ys[i]) == enc(enc(done[j]));
        assert ys[i] == enc(done[j]);
      }
    }
  }

  /** In a run over two items, a finished item can be dropped without the encoder
      being idempotent: with `enc(x) = x + 1`, the run over `[0, 1]` stores markers
      `[1, 2]`, a resume excludes `[2, 3]`, and the finished item 1, whose marker 2
      is the double encoding of the finished item 0, is skipped, while 0 is planned
      again. */
  lemma FinishedItemSkippedByAnotherMarker()
    ensures var enc := (x: int) => x + 1;
      var p := CheckProgress(Init(Items([0, 1]), Some("run.ckpt")), enc, "0.ckpt",
                             Some(Encoded(enc, [0, 1])), _ => None);
      && p == Planned(Checkpoint(Items([0, 1]), Some("run.ckpt"), [2, 3]), [0], Some(2))
      && enc(enc(1)) != enc(1)
  {
    var enc := (x: int) => x + 1;
    assert Encoded(enc, [0, 1]) == [1, 2];
    assert Encoded(enc, [1, 2]) == [2, 3];
    assert [] + [2, 3] == [2, 3];
    assert [0, 1][1..] == [1];
    assert Remaining(enc, [1], [2, 3]) == [];
    assert Remaining(enc, [0, 1], [2, 3]) == [0];
  }

  /** The planning steps of a chain of resumes, with `enc(x) = x + 1`. A run over `[0]`
      stores `[1]`. A resume over `[0, 5]` from that file starts from the done-list `[2]`
      and plans both items again, so its run stores `[2, 1, 6]`, of which `[1]` is not a
      prefix. Planning `[2]` from that file drops 2, which no run finished. */
  lemma ResumeChainDropsUnfinishedItem()
    ensures var enc := (x: int) => x + 1;
      && CheckProgress(Init(Items([0, 5]), Some("run.ckpt")), enc, "0.ckpt", Some([1]), _ => None)
         == Planned(Checkpoint(Items([0, 5]), Some("run.ckpt"), [2]), [0, 5], Some(1))
      && CheckProgress(Init(Items([2]), Some("run.ckpt")), enc, "0.ckpt", Some([2, 1, 6]), _ => None)
         == Planned(Checkpoint(Items([2]), Some("run.ckpt"), [3, 2, 7]), [], Some(3))
  {
    var enc := (x: int) => x + 1;
    assert Encoded(enc, [1]) == [2];
    assert Encoded(enc, [2, 1, 6]) == [3, 2, 7];
    assert [] + [2] == [2];
    assert [] + [3, 2, 7] == [3, 2, 7];
    assert [0, 5][1..] == [5];
    assert Remaining(enc, [5], [2]) == [5];
    assert Remaining(enc, [0, 5], [2]) == [0, 5];
    assert Remaining(enc, [2], [3, 2, 7]) == [];
  }
}
